=== FILE: README.md ===
# aiyu-webhooks order assembly, in Dafny

This project models the order-assembly step of the WhatsApp webhook in `app.js`.
The webhook receives a chat message (text, image or audio). It hands the content to
an extraction service and gets back "extracted" order records. It resolves every
product line of a record against the product catalog, prices it, and sums the lines
into the record's total. Then it wraps each record in an order payload and submits
all payloads with one `createOrder` call. The GET subscription handshake of the same
route is modelled too.

Modules, leaf first:

- `Results` (`results.dfy`): `Option`, `Result` and the `Error` a step throws. `None` stands for JavaScript's `undefined`.
- `Catalog` (`catalog.dfy`): `searchTitle`. The fuzzy MiniSearch index is an opaque `Ranking`, a function from a term to its ranked hits.
- `Orders` (`orders.dfy`): resolving product lines, totals, and the per-record part of the payload map.
- `Dispatch` (`dispatch.dfy`): the `switch (message.type)`. It fixes which collaborators are awaited, in which order, which content fields are filled, and which records the message contributes.
- `Webhook` (`webhook.dfy`): the payload map, the `createOrder` call and what the client sees.
- `Verification` (`verification.dfy`): the GET handshake decision.

The collaborators are function-valued parameters: media-URL resolution, upload, the
three extractors, the search index and the date parser. A collaborator's `Err` is a
rejected promise. An extractor's `Ok(None)` is a promise that resolved to
`undefined`, which is what `extractText`, `extractAudio` and `extractImage` (app.js:164-233) do after they log a transport error.
The handler run ends in one of three ways:

- `Ok200`: `createOrder` was called.
- `ErrorSent`: the image/audio `catch` sent the error back.
- `NoResponse`: the async handler rejected, nothing was sent and `createOrder` was not called.

Behaviours of the code worth knowing:
- An unmatched product name is not skipped. `searchTitle` returns `undefined` and `found.price` throws, so the whole message is dropped (`Webhook.UnmatchedNameRejects`).
- The payload's top-level `timestamp` is always the message's own timestamp. The date-derived value is written onto the nested record, and only when the record has products (`Orders.AssembleRecord`).
- A text message whose extractor rejects is not caught. The handler rejects (`NoResponse`).

## Model

| member | source | states |
|---|---|---|
| Catalog.SearchTitle | app.js:326-333 | the lookup returns a hit exactly when the ranked result list is non-empty, and that hit is the first-ranked one (`founds[0]`) |
| Catalog.SearchTitleIsBest | app.js:327-329 | when the index ranks hits by descending score, the hit `searchTitle` returns scores at least as high as every other hit for the term |
| Orders.ResolveLine | app.js:96-104 | a resolved line keeps its name, quantity and every other property except the six resolved ones; `key`, `fullName`, `zh_name`, `en_name` and `unitPrice` come from the matched hit, and `subtotalPrice = quantity * unitPrice` |
| Orders.ResolveLineWellFormed | app.js:96-104 | a line whose `name` and `quantity` are held only in their own fields stays so after the spread, and none of its remaining properties collides with the six resolved ones |
| Orders.ResolveAll | app.js:92-105 | mapping over the product list succeeds exactly when every name has a hit; the result then has one line per input line, in order, each resolved against its first-ranked hit; otherwise it throws at the `found.price` dereference |
| Orders.AssembleRecord | app.js:90-108 | a record with no product list throws; one with an empty list is left unchanged; otherwise it succeeds exactly when every name matches, its product list becomes the resolved lines, its `totalPrice` is the sum of their `subtotalPrice` (equal to the catalog price of the original lines) and its `timestamp` comes from its date parts; sender and date fields are kept |
| Orders.ResolveAndTotal | app.js:91-106 | the accumulator loop (`totalPrice += subtotalPrice`) resolves the same lines as the map, and its total is the sum of the resolved subtotals and the catalog price of the lines |
| Orders.ResolvedTotal | app.js:94-95 | the sum of the resolved lines' subtotals equals the sum over the original lines of quantity times the first-ranked hit's price |
| Dispatch.DispatchMessage | app.js:38-87 | a text message calls only the text extractor and contributes exactly one record; an image message contributes every record the image extractor returned, in order; an audio message contributes exactly one; any other type calls nothing and contributes none; media failures are caught with the failing step's own error (the rejection of resolution, upload or extraction, or the TypeError of spreading an `undefined` image result); once resolution and upload succeed, the dispatch calls exactly media resolution, the upload of the media URL to `media/<id>`, then the kind's extractor, whether or not extraction then fails; a failed resolution leaves only the resolution call and a failed upload only resolution and upload |
| Webhook.BuildPayloads | app.js:88-121 | one payload per record, in order, each holding that record as assembled; the sender is the record's `sender_name`/`sender_phone` when non-empty, else the contact's; driver, content fields and timestamp are the message's; the map throws exactly when some record is missing or not assemblable, and then with one of the three dereference TypeErrors (`product` of an undefined record, `length` of a missing list, `price` of an unmatched hit) |
| Webhook.Handle | app.js:43-125 | `createOrder` is called exactly when dispatch extracted records and every record assembles, and then with one payload per record; an error is sent exactly when the image/audio `try` caught one, and it is the caught error itself; `createOrder` receives exactly the payload map's output for the dispatched content and records (so an audio message's payloads carry its `audioUrl` and `mediaId`); an unsupported type submits an empty list |
| Webhook.TextGivesOnePayload | app.js:45-52 | a text message whose record assembles produces exactly one payload, carrying the message body and no media fields |
| Webhook.ImageGivesPayloadPerRecord | app.js:53-69 | an image message whose media steps succeed produces one payload per extracted record, in order, all with the same caption, image URL and media id |
| Webhook.MediaFailureAborts | app.js:56-84 | a failure in media resolution, upload or extraction of an image/audio message sends the error and never reaches `createOrder`; after a failed resolution or upload no extractor is called |
| Webhook.UnmatchedNameRejects | app.js:93-94 | a product name with no hit in any record makes the handler reject without calling `createOrder` |
| Webhook.PayloadHeadersAgree | app.js:109-120 | all payloads of one message share the driver, the content fields and the message timestamp |
| Verification.Verify | app.js:135-142 | the challenge is echoed with 200 exactly when the mode is `subscribe` and the token is present and equals the configured one; 403 when mode and token are both present but that fails; no reply when either is missing |

## Left out

- The `req.body.object` check and the guard at app.js:30-31. The guard is inverted: it returns "message missing" when messages ARE present, so as written the handler never reaches the switch for a real message. The model starts from an already-extracted message and contact, as if the guard were the intended `!messages` test.
- Express mechanics: `res.send(err).status(422)` sets the status after the response is sent, so the 422 never reaches the client. The model records only that the error was sent (`ErrorSent`). `res.sendStatus(200)` becomes `Ok200`, and an unhandled rejection of the async handler becomes `NoResponse`.
- Collaborator internals (`getMediaUrlFromId`, `upload`, `extractText`, `extractImage`, `extractAudio`, `createOrder`, `getProducts`, `sendMessage`, S3): these are network I/O, so they are parameters returning `Result`. A media URL that resolved to `undefined` is simply a URL value handed to the upload collaborator. A `createOrder` failure is logged by the helper and does not change the response, so `createOrder` is modelled as always returning.
- The `/messages` route (app.js:17-24): it forwards to `sendMessage` only and has no logic.
- MiniSearch: the index build in `main` (app.js:335-342), the `fuzzy: 0.2` ranking and the race between `main()` and the first request. The index is an opaque `Ranking`. Properties that depend on the ranking algorithm, such as "an exact name always resolves", are not stated.
- The date conversion at app.js:107 (`new Date("Y.M.D")`) is implementation-defined and timezone-dependent. It is an opaque `DateParser` applied to the exact text `Y.M.D`.
- Numbers: JavaScript doubles are modelled as `real`, with no rounding. `parseInt(message.timestamp)` is taken as an already-parsed `int`. Sender fields are strings, and only their truthiness (non-empty) matters.
- Records carry only the fields the handler reads or writes. Other properties of a record pass through untouched in the source and are not represented. The source mutates `o` in place; the model returns the updated record, which cannot be observed differently because the `extracteds` array is not read again.
- Elements of the image extractor's array that are themselves `undefined` are not modelled. Every element is a record.
- Concurrency between in-flight requests and environment/credential loading.
- Catalog.SearchTitleIsBest: holds only under the assumption that the index returns hits by descending score, which MiniSearch does but the model cannot show.

=== FILE: catalog.dfy ===
/** The product lookup of the webhook: a fuzzy full-text index over the catalog,
    seen by the handler only through the ranked hits it returns for a term. */
module Catalog {
  import opened Results

  /** One search result: the document id, the fields the index stores
      (full name, Chinese name, English name, price) and the relevance score. */
  datatype Hit = Hit(id: string, fullName: string, zhName: string, enName: string, price: real, score: real)

  /** The index's answer to a term (with fuzziness 0.2): hits, best first. */
  type Ranking = string -> seq<Hit>

  /** The order in which the index hands hits back: by descending score. */
  ghost predicate RankedByScore(hits: seq<Hit>)
  {
    forall i :: 0 < i < |hits| ==> hits[i - 1].score >= hits[i].score
  }

  /** A term the index has at least one hit for. */
  predicate Matched(ranking: Ranking, term: string)
  {
    |ranking(term)| > 0
  }

  /** The lookup used by the order assembly: the first-ranked hit, or nothing. */
  function SearchTitle(ranking: Ranking, term: string): (found: Option<Hit>)
    ensures found.Some? <==> Matched(ranking, term)
    ensures found.Some? ==> found.value == ranking(term)[0]
    ensures found.Some? ==> found.value in ranking(term)
  {
    if |ranking(term)| > 0 then Some(ranking(term)[0]) else None
  }

  /** The hit the lookup returns outranks every other hit of the term. */
  lemma {:induction false} SearchTitleIsBest(ranking: Ranking, term: string)
    requires RankedByScore(ranking(term))
    requires Matched(ranking, term)
    ensures forall h :: h in ranking(term) ==> SearchTitle(ranking, term).value.score >= h.score
  {
    HeadOutranks(ranking(term));
  }

  lemma {:induction false} HeadOutranks(hits: seq<Hit>)
    requires RankedByScore(hits)
    requires |hits| > 0
    ensures forall i :: 0 <= i < |hits| ==> hits[0].score >= hits[i].score
  {
    if |hits| > 1 {
      HeadOutranks(hits[1..]);
      assert forall i :: 1 <= i < |hits| ==> hits[1..][i - 1] == hits[i];
    }
  }
}

=== FILE: dispatch.dfy ===
/** The message-kind switch of the webhook POST handler: which collaborators
    are called, in which order, which content fields get filled, and which
    extracted records the message contributes. */
module Dispatch {
  import opened Results
  import opened Orders

  /** The kind-specific part of an inbound message. */
  datatype Body =
    | Text(body: string)
    | Image(caption: string, id: string)
    | Audio(id: string)
    | Unsupported   // any other `message.type`

  /** An inbound message: its parsed timestamp and its body. */
  datatype Message = Message(timestamp: int, body: Body)

  /** The message-level content fields every payload carries; "" when not filled. */
  datatype Content = Content(text: string, caption: string, imageUrl: string, audioUrl: string, mediaId: string)

  /** The collaborators the switch awaits. `Err` stands for a rejected promise;
      an extractor's `None` stands for a promise that resolved to `undefined`. */
  datatype Services = Services(
    mediaUrl: string -> Result<string>,
    upload: (string, string, string) -> Result<()>,
    extractText: string -> Result<Option<Record>>,
    extractImage: string -> Result<Option<seq<Record>>>,
    extractAudio: string -> Result<Option<Record>>)

  /** One awaited collaborator call, with its arguments. */
  datatype Call =
    | GetMediaUrl(mediaId: string)
    | Upload(url: string, bucket: string, key: string)
    | ExtractText(input: string)
    | ExtractImage(url: string)
    | ExtractAudio(url: string)

  /** Where the switch leaves the handler. */
  datatype Outcome =
    | Extracted(content: Content, records: seq<Option<Record>>)
    | Caught(error: Error)    // thrown inside the image/audio `try`; answered with the error
    | Uncaught(error: Error)  // thrown outside any `try`; the handler rejects

  datatype Dispatched = Dispatched(calls: seq<Call>, outcome: Outcome)

  /** The bucket the original media is copied to. */
  const Bucket := "aiyuworld"

  /** The object key of a media id in the bucket. */
  function MediaKey(mediaId: string): (key: string)
  {
    "media/" + mediaId
  }

  const NoContent := Content("", "", "", "", "")

  /** Thrown by `extracteds.push(...arr)` when the image extractor resolved to `undefined`. */
  const NotIterable := TypeError("undefined is not iterable")

  /** Media resolution, upload, then the kind's extractor; any failure is caught. */
  function DispatchMedia(svc: Services, id: string, isImage: bool, caption: string): (d: Dispatched)
  {
    var resolve := GetMediaUrl(id);
    match svc.mediaUrl(id)
    case Err(e) => Dispatched([resolve], Caught(e))
    case Ok(url) =>
      var store := Upload(url, Bucket, MediaKey(id));
      match svc.upload(url, Bucket, MediaKey(id))
      case Err(e) => Dispatched([resolve, store], Caught(e))
      case Ok(_) =>
        if isImage then
          var calls := [resolve, store, ExtractImage(url)];
          (match svc.extractImage(url)
           case Err(e) => Dispatched(calls, Caught(e))
           case Ok(None) => Dispatched(calls, Caught(NotIterable))
           case Ok(Some(arr)) => Dispatched(calls, Extracted(Content("", caption, url, "", id),
                                                            seq(|arr|, i requires 0 <= i < |arr| => Some(arr[i])))))
        else
          var calls := [resolve, store, ExtractAudio(url)];
          match svc.extractAudio(url)
          case Err(e) => Dispatched(calls, Caught(e))
          case Ok(x) => Dispatched(calls, Extracted(Content("", "", "", url, id), [x]))
  }

  /** The switch on `message.type`. */
  function DispatchMessage(svc: Services, body: Body): (d: Dispatched)
    // a text message: one extractor call, one record, only `text` filled; a throw escapes
    ensures body.Text? ==> d.calls == [ExtractText(body.body)]
    ensures body.Text? ==> match svc.extractText(body.body)
                           case Ok(x) => d.outcome == Extracted(NoContent.(text := body.body), [x])
                           case Err(e) => d.outcome == Uncaught(e)
    // an image message: every record the extractor returned, in order
    ensures body.Image? ==> (d.outcome.Extracted? <==>
              && svc.mediaUrl(body.id).Ok?
              && svc.upload(svc.mediaUrl(body.id).value, Bucket, MediaKey(body.id)).Ok?
              && svc.extractImage(svc.mediaUrl(body.id).value).Ok?
              && svc.extractImage(svc.mediaUrl(body.id).value).value.Some?)
    ensures body.Image? && d.outcome.Extracted? ==>
              var url := svc.mediaUrl(body.id).value;
              var arr := svc.extractImage(url).value.value;
              && d.outcome.content == Content("", body.caption, url, "", body.id)
              && |d.outcome.records| == |arr|
              && forall i :: 0 <= i < |arr| ==> d.outcome.records[i] == Some(arr[i])
    // an audio message: exactly one record
    ensures body.Audio? ==> (d.outcome.Extracted? <==>
              && svc.mediaUrl(body.id).Ok?
              && svc.upload(svc.mediaUrl(body.id).value, Bucket, MediaKey(body.id)).Ok?
              && svc.extractAudio(svc.mediaUrl(body.id).value).Ok?)
    ensures body.Audio? && d.outcome.Extracted? ==>
              var url := svc.mediaUrl(body.id).value;
              && d.outcome.content == Content("", "", "", url, body.id)
              && d.outcome.records == [svc.extractAudio(url).value]
    // media failures are caught and nothing is extracted past them
    ensures (body.Image? || body.Audio?) ==> !d.outcome.Uncaught?
    ensures (body.Image? || body.Audio?) ==> 1 <= |d.calls| <= 3 && d.calls[0] == GetMediaUrl(body.id)
    ensures (body.Image? || body.Audio?) && svc.mediaUrl(body.id).Err? ==> d.calls == [GetMediaUrl(body.id)]
    ensures (body.Image? || body.Audio?) && svc.mediaUrl(body.id).Ok? &&
            svc.upload(svc.mediaUrl(body.id).value, Bucket, MediaKey(body.id)).Err? ==>
              d.calls == [GetMediaUrl(body.id), Upload(svc.mediaUrl(body.id).value, Bucket, MediaKey(body.id))]
    ensures (body.Image? || body.Audio?) && svc.mediaUrl(body.id).Ok? &&
            svc.upload(svc.mediaUrl(body.id).value, Bucket, MediaKey(body.id)).Ok? ==>
              var url := svc.mediaUrl(body.id).value;
              d.calls == [GetMediaUrl(body.id), Upload(url, Bucket, MediaKey(body.id)),
                          if body.Image? then ExtractImage(url) else ExtractAudio(url)]
    // the error the `catch` receives is the failing step's own
    ensures (body.Image? || body.Audio?) && svc.mediaUrl(body.id).Err? ==>
              d.outcome == Caught(svc.mediaUrl(body.id).error)
    ensures (body.Image? || body.Audio?) && svc.mediaUrl(body.id).Ok? &&
            svc.upload(svc.mediaUrl(body.id).value, Bucket, MediaKey(body.id)).Err? ==>
              d.outcome == Caught(svc.upload(svc.mediaUrl(body.id).value, Bucket, MediaKey(body.id)).error)
    ensures body.Image? && svc.mediaUrl(body.id).Ok? &&
            svc.upload(svc.mediaUrl(body.id).value, Bucket, MediaKey(body.id)).Ok? ==>
              var extracted := svc.extractImage(svc.mediaUrl(body.id).value);
              && (extracted.Err? ==> d.outcome == Caught(extracted.error))
              && (extracted == Ok(None) ==> d.outcome == Caught(NotIterable))
    ensures body.Audio? && svc.mediaUrl(body.id).Ok? &&
            svc.upload(svc.mediaUrl(body.id).value, Bucket, MediaKey(body.id)).Ok? ==>
              var extracted := svc.extractAudio(svc.mediaUrl(body.id).value);
              extracted.Err? ==> d.outcome == Caught(extracted.error)
    // any other type: no call, no record, nothing filled
    ensures body.Unsupported? ==> d == Dispatched([], Extracted(NoContent, []))
    // the original media is uploaded right before it is extracted
    ensures forall j :: 0 <= j < |d.calls| && (d.calls[j].ExtractImage? || d.calls[j].ExtractAudio?) ==>
              && 0 < j
              && d.calls[j - 1].Upload?
              && d.calls[j - 1].url == d.calls[j].url
              && d.calls[j - 1].key == MediaKey(body.id)
  {
    match body
    case Text(t) =>
      var calls := [ExtractText(t)];
      (match svc.extractText(t)
       case Err(e) => Dispatched(calls, Uncaught(e))
       case Ok(x) => Dispatched(calls, Extracted(NoContent.(text := t), [x])))
    case Image(caption, id) => DispatchMedia(svc, id, true, caption)
    case Audio(id) => DispatchMedia(svc, id, false, "")
    case Unsupported => Dispatched([], Extracted(NoContent, []))
  }
}

=== FILE: orders.dfy ===
/** Order assembly for one extracted record: every product line is resolved
    against the catalog, priced, and summed into the record's total. */
module Orders {
  import opened Results
  import opened Catalog

  /** The fields the assembly writes onto a product line, copied from the matched hit. */
  datatype Resolution = Resolution(
    key: string,
    fullName: string,
    zhName: string,
    enName: string,
    unitPrice: real,
    subtotalPrice: real)

  /** A product line as the extractor produced it: the name to look up, the
      quantity, any other fields it carried, and the resolved fields once set.
      `extra` never holds `name` or `quantity` (see `WellFormedLine`): those
      properties live in their own fields. */
  datatype Line = Line(name: string, quantity: real, extra: map<string, string>, resolution: Option<Resolution>)

  /** The representation rule extracted lines are assumed to meet: each
      property of the JavaScript object is held in exactly one place. */
  predicate WellFormedLine(line: Line)
  {
    "name" !in line.extra && "quantity" !in line.extra
  }

  /** Names of the properties the assembly (re)writes on a line; a like-named
      property the extractor supplied is overwritten. */
  const ResolvedFields: set<string> := {"key", "fullName", "zh_name", "en_name", "unitPrice", "subtotalPrice"}

  /** Seconds since the epoch of a parsed calendar date, or NaN for a date the parser rejects. */
  datatype Stamp = Seconds(seconds: int) | InvalidDate

  /** `Math.floor(new Date(text).getTime() / 1000)`: implementation-defined, so left opaque. */
  type DateParser = string -> Stamp

  /** One extracted record. `product` is `None` when the extractor left the field out;
      the date parts are their template-literal renderings ("undefined" when absent);
      `senderName`/`senderPhone` are "" when absent or falsy. */
  datatype Record = Record(
    product: Option<seq<Line>>,
    senderName: string,
    senderPhone: string,
    dateYear: string,
    dateMonth: string,
    dateDay: string,
    totalPrice: Option<real>,
    timestamp: Option<Stamp>)

  /** Thrown by `found.price` when the lookup returned nothing. */
  const UndefinedPrice := TypeError("Cannot read properties of undefined (reading 'price')")

  /** Thrown by `o.product` when the record itself is `undefined`. */
  const UndefinedRecord := TypeError("Cannot read properties of undefined (reading 'product')")

  /** Thrown by `o.product.length` when the record has no product list. */
  const UndefinedProduct := TypeError("Cannot read properties of undefined (reading 'length')")

  /** `{...p, key, fullName, zh_name, en_name, unitPrice, subtotalPrice}` for the hit `found`. */
  function ResolveLine(line: Line, found: Hit): (out: Line)
    ensures out.name == line.name && out.quantity == line.quantity
    ensures out.extra.Keys == line.extra.Keys - ResolvedFields
    ensures forall k :: k in out.extra ==> out.extra[k] == line.extra[k]
    ensures out.resolution.Some?
    ensures out.resolution.value.key == found.id
    ensures out.resolution.value.fullName == found.fullName
    ensures out.resolution.value.zhName == found.zhName
    ensures out.resolution.value.enName == found.enName
    ensures out.resolution.value.unitPrice == found.price
    ensures out.resolution.value.subtotalPrice == out.quantity * out.resolution.value.unitPrice
  {
    line.(extra := line.extra - ResolvedFields,
          resolution := Some(Resolution(found.id, found.fullName, found.zhName, found.enName,
                                        found.price, line.quantity * found.price)))
  }

  /** Resolution keeps a line well formed, and afterwards no property is held
      both in `extra` and in the resolved fields. */
  lemma ResolveLineWellFormed(line: Line, found: Hit)
    requires WellFormedLine(line)
    ensures WellFormedLine(ResolveLine(line, found))
    ensures ResolveLine(line, found).extra.Keys !! ResolvedFields
  {
  }

  /** The line's subtotal, or 0 for a line that carries no resolution. */
  function Subtotal(line: Line): (s: real)
  {
    if line.resolution.Some? then line.resolution.value.subtotalPrice else 0.0
  }

  /** Sum of the lines' subtotals. */
  function Total(lines: seq<Line>): (s: real)
  {
    if |lines| == 0 then 0.0 else Subtotal(lines[0]) + Total(lines[1..])
  }

  /** Reference price of the lines straight from the catalog: each quantity
      times the price of the first-ranked hit for its name. */
  function CatalogPrice(ranking: Ranking, lines: seq<Line>): (s: real)
  {
    if |lines| == 0 then 0.0
    else
      var rest := CatalogPrice(ranking, lines[1..]);
      match SearchTitle(ranking, lines[0].name)
      case Some(found) => lines[0].quantity * found.price + rest
      case None => rest
  }

  /** `o.product.map(...)`: resolves every line in order; the first unmatched
      name throws at the `found.price` dereference. */
  function ResolveAll(ranking: Ranking, lines: seq<Line>): (r: Result<seq<Line>>)
    ensures r.Ok? <==> forall i :: 0 <= i < |lines| ==> Matched(ranking, lines[i].name)
    ensures r.Err? ==> r.error == UndefinedPrice
    ensures r.Ok? ==> |r.value| == |lines|
    ensures r.Ok? ==> forall i :: 0 <= i < |lines| ==> r.value[i] == ResolveLine(lines[i], ranking(lines[i].name)[0])
  {
    if |lines| == 0 then Ok([])
    else
      match SearchTitle(ranking, lines[0].name)
      case None => Err(UndefinedPrice)
      case Some(found) =>
        match ResolveAll(ranking, lines[1..])
        case Err(e) =>
          assert forall i :: 0 <= i < |lines| - 1 ==> lines[1..][i] == lines[i + 1];
          Err(e)
        case Ok(rest) => Ok([ResolveLine(lines[0], found)] + rest)
  }

  /** The record needs no dereference of a missing value: its product list is
      present and every line's name has a hit. */
  predicate Assemblable(ranking: Ranking, rec: Record)
  {
    && rec.product.Some?
    && forall i :: 0 <= i < |rec.product.value| ==> Matched(ranking, rec.product.value[i].name)
  }

  /** The date text handed to `new Date`: `${date_year}.${date_month}.${date_day}`. */
  function DateText(rec: Record): (text: string)
  {
    rec.dateYear + "." + rec.dateMonth + "." + rec.dateDay
  }

  /** The body of the payload map up to the payload itself: a record with
      products gets resolved lines, its total and the date-derived timestamp;
      a record with an empty product list is left as it is. */
  function AssembleRecord(ranking: Ranking, parseDate: DateParser, rec: Record): (r: Result<Record>)
    ensures r.Ok? <==> Assemblable(ranking, rec)
    ensures rec.product.None? ==> r == Err(UndefinedProduct)
    ensures r.Err? && rec.product.Some? ==> r.error == UndefinedPrice
    ensures r.Ok? && |rec.product.value| == 0 ==> r.value == rec
    ensures r.Ok? && |rec.product.value| > 0 ==>
      && r.value.product.Some?
      && |r.value.product.value| == |rec.product.value|
      && r.value.product == Some(ResolveAll(ranking, rec.product.value).value)
      && r.value.totalPrice == Some(Total(r.value.product.value))
      && r.value.totalPrice == Some(CatalogPrice(ranking, rec.product.value))
      && r.value.timestamp == Some(parseDate(DateText(rec)))
    ensures r.Ok? ==>
      && r.value.senderName == rec.senderName
      && r.value.senderPhone == rec.senderPhone
      && r.value.dateYear == rec.dateYear
      && r.value.dateMonth == rec.dateMonth
      && r.value.dateDay == rec.dateDay
  {
    match rec.product
    case None => Err(UndefinedProduct)
    case Some(lines) =>
      if |lines| == 0 then Ok(rec)
      else
        match ResolveAll(ranking, lines)
        case Err(e) => Err(e)
        case Ok(resolved) =>
          ResolvedTotal(ranking, lines);
          Ok(rec.(product := Some(resolved),
                  totalPrice := Some(Total(resolved)),
                  timestamp := Some(parseDate(DateText(rec)))))
  }

  /** Resolves the lines and accumulates the total in one pass, as the handler's
      `totalPrice += subtotalPrice` loop does. */
  method ResolveAndTotal(ranking: Ranking, lines: seq<Line>) returns (resolved: Result<seq<Line>>, total: real)
    ensures resolved == ResolveAll(ranking, lines)
    ensures resolved.Ok? ==> total == Total(resolved.value) == CatalogPrice(ranking, lines)
  {
    var acc: seq<Line> := [];
    total := 0.0;
    var i := 0;
    while i < |lines|
      invariant 0 <= i <= |lines|
      invariant |acc| == i
      invariant forall k :: 0 <= k < i ==> Matched(ranking, lines[k].name)
      invariant forall k :: 0 <= k < i ==> acc[k] == ResolveLine(lines[k], ranking(lines[k].name)[0])
      invariant total == Total(acc)
    {
      match SearchTitle(ranking, lines[i].name)
      case None =>
        assert !Matched(ranking, lines[i].name);
        resolved := Err(UndefinedPrice);
        return;
      case Some(found) =>
        var line := ResolveLine(lines[i], found);
        TotalAppend(acc, line);
        total := total + line.resolution.value.subtotalPrice;
        acc := acc + [line];
        i := i + 1;
    }
    assert acc == ResolveAll(ranking, lines).value;
    resolved := Ok(acc);
    ResolvedTotal(ranking, lines);
  }

  lemma {:induction false} TotalAppend(lines: seq<Line>, line: Line)
    ensures Total(lines + [line]) == Total(lines) + Subtotal(line)
  {
    if |lines| > 0 {
      assert (lines + [line])[1..] == lines[1..] + [line];
      TotalAppend(lines[1..], line);
    }
  }

  /** The total of the resolved lines is the catalog price of the original lines. */
  lemma {:induction false} ResolvedTotal(ranking: Ranking, lines: seq<Line>)
    requires ResolveAll(ranking, lines).Ok?
    ensures Total(ResolveAll(ranking, lines).value) == CatalogPrice(ranking, lines)
  {
    if |lines| > 0 {
      var found := ranking(lines[0].name)[0];
      var rest := ResolveAll(ranking, lines[1..]).value;
      assert ResolveAll(ranking, lines).value == [ResolveLine(lines[0], found)] + rest;
      assert Subtotal(ResolveLine(lines[0], found)) == lines[0].quantity * found.price;
      assert ([ResolveLine(lines[0], found)] + rest)[1..] == rest;
      ResolvedTotal(ranking, lines[1..]);
    }
  }
}

=== FILE: results.dfy ===
/** Failure-carrying datatypes shared by the webhook model. */
module Results {

  /** A value that may be missing; `None` stands for JavaScript's `undefined`. */
  datatype Option<+T> = None | Some(value: T)

  /** Why a step of the handler threw. */
  datatype Error =
    | Rejected(reason: string)   // a collaborator's promise rejected
    | TypeError(message: string) // the handler's own code dereferenced something unusable

  /** The outcome of a step that may throw. */
  datatype Result<+T> = Ok(value: T) | Err(error: Error)
}

=== FILE: verification.dfy ===
/** The subscription handshake of the webhook GET route. */
module Verification {
  import opened Results

  /** How the GET route answers. */
  datatype Reply =
    | Challenge(body: Option<string>)  // 200 with the challenge echoed back
    | Forbidden                        // 403
    | NoReply                          // nothing is sent

  /** The only mode the handshake accepts. */
  const Subscribe := "subscribe"

  /** A query parameter is truthy when it is present and not empty. */
  predicate Present(param: Option<string>)
  {
    param.Some? && param.value != ""
  }

  /** The decision on `hub.mode`, `hub.verify_token` and `hub.challenge`
      against the configured token (itself possibly unset). */
  function Verify(mode: Option<string>, token: Option<string>, challenge: Option<string>,
                  verifyToken: Option<string>): (r: Reply)
    ensures r.Challenge? <==> mode == Some(Subscribe) && Present(token) && token == verifyToken
    ensures r.Challenge? ==> r.body == challenge
    ensures r.Forbidden? <==> Present(mode) && Present(token) && !(mode == Some(Subscribe) && token == verifyToken)
    ensures r.NoReply? <==> !Present(mode) || !Present(token)
  {
    if Present(mode) && Present(token) then
      if mode == Some(Subscribe) && token == verifyToken then Challenge(challenge) else Forbidden
    else NoReply
  }
}

=== FILE: webhook.dfy ===
/** The webhook POST handler from the extracted message onwards: dispatch,
    one payload per extracted record, and the single `createOrder` call. */
module Webhook {
  import opened Results
  import opened Catalog
  import opened Orders
  import opened Dispatch

  /** The sender as the channel reports it: `profile.name` and `wa_id`. */
  datatype Contact = Contact(name: string, waId: string)

  /** The order payload handed to `createOrder`; `content` holds the
      `text`, `caption`, `imageUrl`, `audioUrl` and `mediaId` fields. */
  datatype Payload = Payload(
    driver: string,
    fromName: string,
    fromPhone: string,
    content: Content,
    timestamp: int,
    extracted: Record)

  /** The driver name every payload carries. */
  const Driver := "Bruce Lee"

  /** What the client of the POST sees. */
  datatype Response =
    | Ok200              // `createOrder` was called and the handler answered 200
    | ErrorSent(error: Error)   // the image/audio `catch` sent the error
    | NoResponse(error: Error)  // the handler rejected; nothing is sent

  /** One run of the handler: the collaborator calls of the switch, the list
      `createOrder` was called with (if it was reached), and the response. */
  datatype Run = Run(calls: seq<Call>, order: Option<seq<Payload>>, response: Response)

  /** A JavaScript string is truthy when it is not empty. */
  predicate Truthy(s: string)
  {
    s != ""
  }

  /** The object literal of the payload map for an already assembled record. */
  function MakePayload(content: Content, contact: Contact, timestamp: int, rec: Record): (p: Payload)
  {
    Payload(Driver,
            if Truthy(rec.senderName) then rec.senderName else contact.name,
            if Truthy(rec.senderPhone) then rec.senderPhone else contact.waId,
            content, timestamp, rec)
  }

  /** Every record of the list is present and assemblable. */
  predicate AllAssemblable(ranking: Ranking, records: seq<Option<Record>>)
  {
    forall i :: 0 <= i < |records| ==> records[i].Some? && Assemblable(ranking, records[i].value)
  }

  /** `extracteds.map(o => ...)`: the first record that throws aborts the whole map. */
  function BuildPayloads(ranking: Ranking, parseDate: DateParser, content: Content, contact: Contact,
                         timestamp: int, records: seq<Option<Record>>): (r: Result<seq<Payload>>)
    ensures r.Ok? <==> AllAssemblable(ranking, records)
    ensures r.Err? ==> r.error in {UndefinedRecord, UndefinedProduct, UndefinedPrice}
    ensures r.Ok? ==> |r.value| == |records|
    ensures r.Ok? ==> forall i :: 0 <= i < |records| ==>
              && r.value[i].extracted == AssembleRecord(ranking, parseDate, records[i].value).value
              && r.value[i].driver == Driver
              && r.value[i].content == content
              && r.value[i].timestamp == timestamp
              && r.value[i].fromName == (if Truthy(records[i].value.senderName) then records[i].value.senderName else contact.name)
              && r.value[i].fromPhone == (if Truthy(records[i].value.senderPhone) then records[i].value.senderPhone else contact.waId)
  {
    if |records| == 0 then Ok([])
    else
      var head :=
        match records[0]
        case None => Err(UndefinedRecord)
        case Some(o) => AssembleRecord(ranking, parseDate, o);
      match head
      case Err(e) => Err(e)
      case Ok(o) =>
        match BuildPayloads(ranking, parseDate, content, contact, timestamp, records[1..])
        case Err(e) =>
          assert forall i :: 0 <= i < |records| - 1 ==> records[1..][i] == records[i + 1];
          Err(e)
        case Ok(rest) => Ok([MakePayload(content, contact, timestamp, o)] + rest)
  }

  /** The handler for an extracted message and contact. */
  function Handle(svc: Services, ranking: Ranking, parseDate: DateParser, msg: Message, contact: Contact): (run: Run)
    ensures run.calls == DispatchMessage(svc, msg.body).calls
    ensures run.order.Some? <==> run.response == Ok200
    ensures run.response.ErrorSent? <==> DispatchMessage(svc, msg.body).outcome.Caught?
    ensures run.response.ErrorSent? ==> msg.body.Image? || msg.body.Audio?
    ensures run.response.ErrorSent? ==> run.response.error == DispatchMessage(svc, msg.body).outcome.error
    ensures run.order.Some? <==>
              && DispatchMessage(svc, msg.body).outcome.Extracted?
              && AllAssemblable(ranking, DispatchMessage(svc, msg.body).outcome.records)
    ensures run.order.Some? ==> |run.order.value| == |DispatchMessage(svc, msg.body).outcome.records|
    ensures run.order.Some? ==>
              var d := DispatchMessage(svc, msg.body);
              run.order.value == BuildPayloads(ranking, parseDate, d.outcome.content, contact, msg.timestamp, d.outcome.records).value
    ensures msg.body.Unsupported? ==> run == Run([], Some([]), Ok200)
  {
    var d := DispatchMessage(svc, msg.body);
    match d.outcome
    case Uncaught(e) => Run(d.calls, None, NoResponse(e))
    case Caught(e) => Run(d.calls, None, ErrorSent(e))
    case Extracted(content, records) =>
      match BuildPayloads(ranking, parseDate, content, contact, msg.timestamp, records)
      case Err(e) => Run(d.calls, None, NoResponse(e))
      case Ok(payloads) => Run(d.calls, Some(payloads), Ok200)
  }

  /** A text message whose record assembles yields exactly one payload, carrying
      the message body and no media fields. */
  lemma TextGivesOnePayload(svc: Services, ranking: Ranking, parseDate: DateParser, msg: Message, contact: Contact)
    requires msg.body.Text?
    requires svc.extractText(msg.body.body).Ok? && svc.extractText(msg.body.body).value.Some?
    requires Assemblable(ranking, svc.extractText(msg.body.body).value.value)
    ensures var run := Handle(svc, ranking, parseDate, msg, contact);
            var rec := svc.extractText(msg.body.body).value.value;
            && run.calls == [ExtractText(msg.body.body)]
            && run.response == Ok200
            && |run.order.value| == 1
            && run.order.value[0].extracted == AssembleRecord(ranking, parseDate, rec).value
            && run.order.value[0].content == Content(msg.body.body, "", "", "", "")
  {
  }

  /** An image message whose media steps succeed yields one payload per record
      of the image extractor, in order, all with the same image fields. */
  lemma ImageGivesPayloadPerRecord(svc: Services, ranking: Ranking, parseDate: DateParser, msg: Message, contact: Contact)
    requires msg.body.Image?
    requires svc.mediaUrl(msg.body.id).Ok?
    requires svc.upload(svc.mediaUrl(msg.body.id).value, Bucket, MediaKey(msg.body.id)).Ok?
    requires svc.extractImage(svc.mediaUrl(msg.body.id).value).Ok?
    requires svc.extractImage(svc.mediaUrl(msg.body.id).value).value.Some?
    requires forall rec :: rec in svc.extractImage(svc.mediaUrl(msg.body.id).value).value.value ==> Assemblable(ranking, rec)
    ensures var run := Handle(svc, ranking, parseDate, msg, contact);
            var url := svc.mediaUrl(msg.body.id).value;
            var arr := svc.extractImage(url).value.value;
            && run.calls == [GetMediaUrl(msg.body.id), Upload(url, Bucket, MediaKey(msg.body.id)), ExtractImage(url)]
            && run.response == Ok200
            && |run.order.value| == |arr|
            && forall i :: 0 <= i < |arr| ==>
                 && run.order.value[i].extracted == AssembleRecord(ranking, parseDate, arr[i]).value
                 && run.order.value[i].content == Content("", msg.body.caption, url, "", msg.body.id)
  {
  }

  /** A failure while resolving, uploading or extracting an image or audio
      message is answered with the error, and `createOrder` is never called;
      once the upload fails, no extractor is called either. */
  lemma MediaFailureAborts(svc: Services, ranking: Ranking, parseDate: DateParser, msg: Message, contact: Contact)
    requires msg.body.Image? || msg.body.Audio?
    requires var media := svc.mediaUrl(msg.body.id);
             || media.Err?
             || svc.upload(media.value, Bucket, MediaKey(msg.body.id)).Err?
             || (msg.body.Image? && (svc.extractImage(media.value).Err? || svc.extractImage(media.value).value.None?))
             || (msg.body.Audio? && svc.extractAudio(media.value).Err?)
    ensures var run := Handle(svc, ranking, parseDate, msg, contact);
            && run.response.ErrorSent?
            && run.order == None
    ensures var run := Handle(svc, ranking, parseDate, msg, contact);
            var media := svc.mediaUrl(msg.body.id);
            (media.Err? || svc.upload(media.value, Bucket, MediaKey(msg.body.id)).Err?) ==>
              forall c :: c in run.calls ==> !c.ExtractImage? && !c.ExtractAudio?
  {
  }

  /** A product name without a hit anywhere in any record makes the handler
      reject before `createOrder` is called. */
  lemma UnmatchedNameRejects(svc: Services, ranking: Ranking, parseDate: DateParser, msg: Message, contact: Contact, i: int, j: int)
    requires DispatchMessage(svc, msg.body).outcome.Extracted?
    requires var records := DispatchMessage(svc, msg.body).outcome.records;
             && 0 <= i < |records|
             && records[i].Some?
             && records[i].value.product.Some?
             && 0 <= j < |records[i].value.product.value|
             && SearchTitle(ranking, records[i].value.product.value[j].name) == None
    ensures var run := Handle(svc, ranking, parseDate, msg, contact);
            && run.response.NoResponse?
            && run.order == None
  {
  }

  /** All payloads of one message share the driver, the content fields and the
      message timestamp; only the sender and the record differ. */
  lemma PayloadHeadersAgree(svc: Services, ranking: Ranking, parseDate: DateParser, msg: Message, contact: Contact)
    requires Handle(svc, ranking, parseDate, msg, contact).order.Some?
    ensures var ps := Handle(svc, ranking, parseDate, msg, contact).order.value;
            forall i, j :: 0 <= i < |ps| && 0 <= j < |ps| ==>
              && ps[i].driver == ps[j].driver == Driver
              && ps[i].content == ps[j].content
              && ps[i].timestamp == ps[j].timestamp == msg.timestamp
  {
  }
}
